=== FILE: README.md ===
# Galago2D sprite mesh, in Dafny

This project models `com.galago.sprite.Sprite`. It is the mesh that Galago2D uses to draw a 2D
sprite in a 3D scene. A sprite is a quad of `width` by `height` world units centred on the
origin. It has four vertices, four texture (UV) coordinates, four normals and a fixed
six-entry index list forming two triangles. The texture coordinates come from one of two
addressing schemes:

- **Grid.** Cell `(colPosition, rowPosition)` of a sprite sheet of `columns` by `rows` equal
  cells. Every corner is moved inwards by the inset `uvSpacing` (0.001).
- **Pixel rectangle.** The rectangle `(x, y, w, h)` of a texture of `imgW` by `imgH` pixels,
  scaled to [0, 1]. No inset is applied.

The two-argument constructor is the grid constructor for the single cell of a 1-by-1 sheet.
After construction, `flipXCoords` and `flipYCoords` mirror the texture by swapping texture
coordinates in place. Each then re-uploads the texture-coordinate buffer and nothing else.

Everything is in `sprite.dfy`, in module `GalagoSprite`:

- **Values.** `Vec2` and `Vec3` stand for jME's `Vector2f` and `Vector3f`. Java `int` is the
  newtype `Int32`. The one `int` addition in the source (the pixel corners `x + w` and
  `y + h`) wraps explicitly through `AddInt32`. Java `float` is an exact `real`.
- **Pure parts.** The coordinate and geometry computations are functions: `GridTexCoords`,
  `PixelTexCoords`, `Vertices`, `Normals` and `Indexes`. The flips' reorderings are `FlipX`
  and `FlipY`. `GridTexCoords` takes the inset as a parameter `s`, so that the lemmas about
  it hold for every inset. The class passes `UvSpacing` (0.001).
- **The object.** `Sprite` is a class with the source's fields. `texCoord` is an
  `array<Vec2>` of length 4. The engine's vertex buffers are the ghost fields `posBuf`,
  `uvBuf`, `normBuf` and `idxBuf`, which hold what was last uploaded. `Valid()` ties the
  buffers to the geometry and to the current texture coordinates.
- **Operations on the object.** The three constructors and `InitializeMesh` fill the object
  from the pure functions. `FlipXCoords` and `FlipYCoords` do the source's swaps through a
  temporary. Their contracts give the new array as `FlipX` or `FlipY` of the old one. They
  also state that the other buffers and fields are unchanged.
- **Getters.** `getWidth` … `getRowPosition` are the functions `GetWidth` … `GetRowPosition`.
  They return the fields.

## Model

| member | source | states |
|---|---|---|
| GalagoSprite.AddInt32 | src/main/java/com/galago/sprite/Sprite.java:68-71 | Java `int` addition in `x + w` and `y + h`: the result differs from the true sum by a multiple of 2^32, and equals it exactly when the sum fits in an `int` |
| GalagoSprite.GridTexCoords | src/main/java/com/galago/sprite/Sprite.java:48-54 | grid UVs are four coordinates forming an axis-aligned rectangle: 0 and 2 share u, 1 and 3 share u, 0 and 1 share v, 2 and 3 share v; each side is one cell (1/columns, 1/rows) less twice the inset; where the rectangle sits is stated by GridTexCoordsInsetFromCell |
| GalagoSprite.GridTexCoordsInsetFromCell | src/main/java/com/galago/sprite/Sprite.java:48-54 | every corner sits exactly s inside cell (colPosition, rowPosition): u runs from c/columns + s to (c+1)/columns - s and v from r/rows + s to (r+1)/rows - s; with the corner pairing this fixes all four UVs |
| GalagoSprite.PixelTexCoords | src/main/java/com/galago/sprite/Sprite.java:65-71 | pixel-rectangle UVs are four coordinates forming an axis-aligned rectangle with the same corner pairing as the grid UVs |
| GalagoSprite.Vertices | src/main/java/com/galago/sprite/Sprite.java:78-82 | the vertices depend only on width and height: all z are 0, v3 = -v0 and v2 = -v1 (centred), the quad is axis-aligned, and it spans exactly width along x and height along y; these facts fix all four vertices |
| GalagoSprite.Normals | src/main/java/com/galago/sprite/Sprite.java:90-93 | the normal buffer is four copies of (0, 0, 1) |
| GalagoSprite.Indexes | src/main/java/com/galago/sprite/Sprite.java:85 | six indexes, every one in 0..3, and every vertex 0..3 used |
| GalagoSprite.FlipX | src/main/java/com/galago/sprite/Sprite.java:104-110 | the reordering `flipXCoords` applies keeps four coordinates |
| GalagoSprite.FlipY | src/main/java/com/galago/sprite/Sprite.java:114-120 | the reordering `flipYCoords` applies keeps four coordinates |
| GalagoSprite.FlipXInvolution | src/main/java/com/galago/sprite/Sprite.java:104-110 | flipping X twice restores the original coordinates |
| GalagoSprite.FlipYInvolution | src/main/java/com/galago/sprite/Sprite.java:114-120 | flipping Y twice restores the original coordinates |
| GalagoSprite.FlipsCommute | src/main/java/com/galago/sprite/Sprite.java:104-120 | flip X then Y equals flip Y then X, and both swap 0 with 3 and 1 with 2 |
| GalagoSprite.FlipsPermute | src/main/java/com/galago/sprite/Sprite.java:104-120 | each flip is a permutation: the multiset of coordinates is unchanged |
| GalagoSprite.CellSizeSpansCell | src/main/java/com/galago/sprite/Sprite.java:48-49 | `colSize * k` is the start k/n of cell k, `colSize * k + colSize` the start of cell k + 1, and `colSize * n == 1` |
| GalagoSprite.CellStartMonotone | src/main/java/com/galago/sprite/Sprite.java:48-49 | with n >= 1 cells, cell starts increase with the cell number |
| GalagoSprite.GridTexCoordsInsideCell | src/main/java/com/galago/sprite/Sprite.java:48-54 | with 0 <= inset <= half a cell, every grid UV lies in cell [c/columns, (c+1)/columns] by [r/rows, (r+1)/rows] |
| GalagoSprite.GridTexCoordsInUnitSquare | src/main/java/com/galago/sprite/Sprite.java:48-54 | for 0 <= colPosition < columns, 0 <= rowPosition < rows and 0 <= inset <= half a cell, every grid UV component is in [0, 1] |
| GalagoSprite.DistinctCellsDisjoint | src/main/java/com/galago/sprite/Sprite.java:48-54 | with a positive inset of at most half a cell, the UV rectangles of two different cells share no point (no bleeding from neighbouring sprites) |
| GalagoSprite.ZeroInsetNeighboursTouch | src/main/java/com/galago/sprite/Sprite.java:48-54 | with inset 0, horizontally adjacent cells' UV rectangles touch |
| GalagoSprite.UvSpacingInUnitSquare | src/main/java/com/galago/sprite/Sprite.java:25-54 | with the 0.001 inset the class uses, every UV of a cell on a sheet of at most 500 by 500 cells lies in the unit square |
| GalagoSprite.InsetFitsCell | src/main/java/com/galago/sprite/Sprite.java:25 | twice the 0.001 inset fits in a cell of 1/n exactly when n <= 500 |
| GalagoSprite.UvSpacingFitsUpTo500 | src/main/java/com/galago/sprite/Sprite.java:51-54 | with the 0.001 inset, the grid UV rectangle is not mirrored along u (uv[0].x <= uv[1].x) exactly when columns <= 500, and along v exactly when rows <= 500; it has positive width exactly when columns < 500 and positive height exactly when rows < 500, so at 500 it has zero width or height |
| GalagoSprite.DefaultTexCoordsCoverTexture | src/main/java/com/galago/sprite/Sprite.java:34-36 | grid cell (0, 0) of a 1-by-1 sheet is the whole texture inset by s: (s, 1-s), (1-s, 1-s), (s, s), (1-s, s) |
| GalagoSprite.GridExample | src/main/java/com/galago/sprite/Sprite.java:51-54 | cell (1, 0) of a 2-by-2 sheet gives (0.501, 0.499), (0.999, 0.499), (0.501, 0.001), (0.999, 0.001) |
| GalagoSprite.PixelTexCoordsRecoverRect | src/main/java/com/galago/sprite/Sprite.java:68-71 | when x + w and y + h fit in an `int`, scaling the UVs back by the image size gives the pixel rectangle's corners x, x + w, y, y + h |
| GalagoSprite.PixelExample | src/main/java/com/galago/sprite/Sprite.java:68-71 | rectangle (0, 0, 10, 20) of a 100-by-200 image gives (0, 0.1), (0.1, 0.1), (0, 0), (0.1, 0) |
| GalagoSprite.TrianglesCoverQuad | src/main/java/com/galago/sprite/Sprite.java:79-85 | for positive width and height, both index triangles wind counter-clockwise seen from the +z normal and each covers half the quad's area; they share exactly the edge 1-2, a diagonal (v1 = -v2), and together use all four corners, so they tile the quad |
| GalagoSprite.NormalsPerpendicular | src/main/java/com/galago/sprite/Sprite.java:90-93 | every normal is a unit vector perpendicular to every edge between vertices of the quad |
| GalagoSprite.GridOrientation | src/main/java/com/galago/sprite/Sprite.java:51-54 | on a quad of positive size with an inset below half a cell, grid UVs run with the quad along x and against it along y (the bottom edge gets the larger v of the cell, the top edge the smaller) |
| GalagoSprite.PixelOrientation | src/main/java/com/galago/sprite/Sprite.java:68-71 | for a non-empty pixel rectangle whose corners fit in an `int`, pixel UVs are oriented as grid UVs are: with the quad along x, against it along y |
| GalagoSprite.MirroredReordering | src/main/java/com/galago/sprite/Sprite.java:104-120 | reordering coordinates by a self-inverse corner swap that mirrors an axis turns "runs with the quad" into "runs against it", and back |
| GalagoSprite.FlatReordering | src/main/java/com/galago/sprite/Sprite.java:104-120 | reordering coordinates by a self-inverse swap of corners that share their position along an axis keeps the texture's orientation along that axis |
| GalagoSprite.FlipXMirrors | src/main/java/com/galago/sprite/Sprite.java:104-110 | flipping X reverses the texture's orientation along x, in both directions of the iff, and keeps its orientation along y |
| GalagoSprite.FlipYMirrors | src/main/java/com/galago/sprite/Sprite.java:114-120 | flipping Y reverses the texture's orientation along y, in both directions of the iff, and keeps its orientation along x |
| GalagoSprite.Sprite.constructor | src/main/java/com/galago/sprite/Sprite.java:34-36 | the two-argument constructor gives the same fields (1, 1, 0, 0) and UVs as the grid constructor for cell (0, 0) of a 1-by-1 sheet |
| GalagoSprite.Sprite.Grid | src/main/java/com/galago/sprite/Sprite.java:38-58 | stores width, height, columns, rows, colPosition and rowPosition; the texture coordinates are GridTexCoords with the 0.001 inset; all buffers are uploaded consistently |
| GalagoSprite.Sprite.PixelRect | src/main/java/com/galago/sprite/Sprite.java:60-74 | stores width and height; the grid fields keep their defaults 1, 1, 0, 0; the texture coordinates are PixelTexCoords; all buffers are uploaded consistently |
| GalagoSprite.Sprite.InitializeMesh | src/main/java/com/galago/sprite/Sprite.java:76-97 | uploads the position buffer Vertices(width, height), the current texture coordinates, the four normals and the index list |
| GalagoSprite.Sprite.FlipXCoords | src/main/java/com/galago/sprite/Sprite.java:104-112 | the array becomes FlipX of its old contents; the texture buffer equals the new array; the position, normal and index buffers and all other fields are unchanged |
| GalagoSprite.Sprite.FlipYCoords | src/main/java/com/galago/sprite/Sprite.java:114-122 | the array becomes FlipY of its old contents; the texture buffer equals the new array; the position, normal and index buffers and all other fields are unchanged |
| GalagoSprite.Sprite.GetWidth | src/main/java/com/galago/sprite/Sprite.java:124-126 | returns the field `width` |
| GalagoSprite.Sprite.GetHeight | src/main/java/com/galago/sprite/Sprite.java:128-130 | returns the field `height` |
| GalagoSprite.Sprite.GetRows | src/main/java/com/galago/sprite/Sprite.java:132-134 | returns the field `rows` |
| GalagoSprite.Sprite.GetColumns | src/main/java/com/galago/sprite/Sprite.java:136-138 | returns the field `columns` |
| GalagoSprite.Sprite.GetColPosition | src/main/java/com/galago/sprite/Sprite.java:140-142 | returns the field `colPosition` |
| GalagoSprite.Sprite.GetRowPosition | src/main/java/com/galago/sprite/Sprite.java:144-146 | returns the field `rowPosition` |

## Left out

- The no-argument constructor (Sprite.java:31-32) exists for serialization only. It leaves the texture coordinates unset, so it is not modelled.
- The jME `Mesh` superclass, `setBuffer`, `BufferUtils` and `updateBound` (Sprite.java:88-95) are engine calls. The uploaded buffers are ghost sequences of vectors rather than flat float and short buffers, and the bounding-volume recomputation is not modelled.
- Texture lookup (`t.getImage().getWidth()` and `getHeight()`, Sprite.java:65-66) is an engine call. `PixelRect` and `PixelTexCoords` take the image size as `imgW` and `imgH`.
- Single-precision float rounding is not modelled. This includes the rounding of large `int` values converted to `float`, and the results of `1f / 0` (Infinity) and `0f / 0` (NaN). `columns` and `rows` must therefore be non-zero, and `imgW` and `imgH` positive.
- Java `Vector2f` objects are references. The flips move references between array slots, and no other code changes those vectors, so the model swaps values.
- The grid constructor does not check that the grid position lies on the sheet (Sprite.java:38-58). The model accepts any position as the source does; the lemmas that need a cell on the sheet say so in their preconditions.

=== FILE: sprite.dfy ===
/*
 * A model of the Galago2D `Sprite` mesh: a centred four-vertex quad with
 * texture (UV) coordinates that address either one cell of a sprite-sheet
 * grid or a pixel rectangle of a texture, and two operations that mirror
 * the texture coordinates horizontally or vertically.
 *
 * Single-precision floats are modelled as exact `real`s; Java `int` values
 * as the newtype Int32, with the one `int` addition of the source (a pixel
 * corner `x + w`, `y + h`) wrapped explicitly.
 */
module GalagoSprite {

  /** Java `int`: 32-bit two's complement. */
  newtype Int32 = x: int | -0x8000_0000 <= x < 0x8000_0000

  /** True when the mathematical value `n` fits in a Java `int`. */
  predicate FitsInt32(n: int) {
    -0x8000_0000 <= n < 0x8000_0000
  }

  /** Java `a + b` on `int`: the mathematical sum, wrapped to 32 bits. */
  function AddInt32(a: Int32, b: Int32): (r: Int32)
    ensures (r as int - (a as int + b as int)) % 0x1_0000_0000 == 0
    ensures FitsInt32(a as int + b as int) <==> r as int == a as int + b as int
  {
    var sum := a as int + b as int;
    if sum < -0x8000_0000 then (sum + 0x1_0000_0000) as Int32
    else if sum >= 0x8000_0000 then (sum - 0x1_0000_0000) as Int32
    else sum as Int32
  }

  /** `com.jme3.math.Vector2f`: one texture coordinate (u along x, v along y). */
  datatype Vec2 = Vec2(x: real, y: real)

  /** `com.jme3.math.Vector3f`: a vertex position or a normal. */
  datatype Vec3 = Vec3(x: real, y: real, z: real)

  function Neg(a: Vec3): Vec3 {
    Vec3(-a.x, -a.y, -a.z)
  }

  function Sub(a: Vec3, b: Vec3): Vec3 {
    Vec3(a.x - b.x, a.y - b.y, a.z - b.z)
  }

  function Dot(a: Vec3, b: Vec3): real {
    a.x * b.x + a.y * b.y + a.z * b.z
  }

  /** The inset applied to every corner of a grid cell (the field `uvSpacing`). */
  const UvSpacing: real := 0.001

  // ---------------------------------------------------------------------
  // Texture coordinates
  // ---------------------------------------------------------------------

  /** `1f / (float) n`: the extent of one grid cell along an axis of length 1. */
  function CellSize(n: Int32): real
    requires n != 0
  {
    1.0 / n as real
  }

  /** Where cell `k` of `n` equal cells of [0, 1] starts: k / n. */
  function CellStart(k: int, n: Int32): real
    requires n != 0
  {
    k as real / n as real
  }

  /**
   * The UVs of the grid constructor: cell (colPosition, rowPosition) of a
   * sheet of `columns` by `rows` cells, each corner moved inwards by `s`.
   * The four coordinates form an axis-aligned rectangle whose sides are one
   * cell less twice the inset; corner order is bottom-left, bottom-right,
   * top-left, top-right of the quad.
   */
  function GridTexCoords(columns: Int32, rows: Int32, colPosition: Int32, rowPosition: Int32, s: real): (uv: seq<Vec2>)
    requires columns != 0 && rows != 0
    ensures |uv| == 4
    ensures uv[0].x == uv[2].x && uv[1].x == uv[3].x
    ensures uv[0].y == uv[1].y && uv[2].y == uv[3].y
    ensures uv[1].x - uv[0].x == CellSize(columns) - 2.0 * s
    ensures uv[0].y - uv[2].y == CellSize(rows) - 2.0 * s
  {
    var colSize := CellSize(columns);
    var rowSize := CellSize(rows);
    var left := colSize * colPosition as real;
    var bottom := rowSize * rowPosition as real;
    [ Vec2(left + s, bottom + rowSize - s),
      Vec2(left + colSize - s, bottom + rowSize - s),
      Vec2(left + s, bottom + s),
      Vec2(left + colSize - s, bottom + s) ]
  }

  /**
   * The UVs of the pixel-rectangle constructor: the rectangle (x, y, w, h)
   * of an image of imgW by imgH pixels, scaled to [0, 1], without inset.
   * The corners `x + w` and `y + h` are Java `int` sums.
   */
  function PixelTexCoords(x: Int32, y: Int32, w: Int32, h: Int32, imgW: Int32, imgH: Int32): (uv: seq<Vec2>)
    requires imgW > 0 && imgH > 0
    ensures |uv| == 4
    ensures uv[0].x == uv[2].x && uv[1].x == uv[3].x
    ensures uv[0].y == uv[1].y && uv[2].y == uv[3].y
  {
    var right := AddInt32(x, w);
    var top := AddInt32(y, h);
    var fw := imgW as real;
    var fh := imgH as real;
    [ Vec2(x as real / fw, top as real / fh),
      Vec2(right as real / fw, top as real / fh),
      Vec2(x as real / fw, y as real / fh),
      Vec2(right as real / fw, y as real / fh) ]
  }

  // ---------------------------------------------------------------------
  // Geometry (initializeMesh)
  // ---------------------------------------------------------------------

  /**
   * The four vertex positions: a width-by-height rectangle in the z = 0
   * plane, centred on the origin, in the corner order of the UVs. The
   * contract determines the four vertices completely.
   */
  function Vertices(width: real, height: real): (v: seq<Vec3>)
    ensures |v| == 4
    ensures forall k :: 0 <= k < 4 ==> v[k].z == 0.0
    ensures v[3] == Neg(v[0]) && v[2] == Neg(v[1])
    ensures v[0].x == v[2].x && v[1].x == v[3].x && v[0].y == v[1].y && v[2].y == v[3].y
    ensures v[1].x - v[0].x == width && v[2].y - v[0].y == height
  {
    [ Vec3(-width * 0.5, -height * 0.5, 0.0),
      Vec3(width * 0.5, -height * 0.5, 0.0),
      Vec3(-width * 0.5, height * 0.5, 0.0),
      Vec3(width * 0.5, height * 0.5, 0.0) ]
  }

  /** The normal of the quad's face, shared by all four vertices. */
  const FaceNormal: Vec3 := Vec3(0.0, 0.0, 1.0)

  /** The normal buffer: one face normal per vertex. */
  function Normals(): (n: seq<Vec3>)
    ensures |n| == 4
    ensures forall k :: 0 <= k < |n| ==> n[k] == FaceNormal
  {
    [FaceNormal, FaceNormal, FaceNormal, FaceNormal]
  }

  /**
   * The index buffer: two triangles that together use every one of the
   * four vertices and nothing else.
   */
  function Indexes(): (idx: seq<int>)
    ensures |idx| == 6
    ensures forall k :: 0 <= k < |idx| ==> 0 <= idx[k] < 4
    ensures forall i :: 0 <= i < 4 ==> i in idx
  {
    [2, 0, 1, 1, 3, 2]
  }

  // ---------------------------------------------------------------------
  // Flips
  // ---------------------------------------------------------------------

  /** What `flipXCoords` does to the texture coordinates: swap 0 with 1 and 2 with 3. */
  function FlipX(uv: seq<Vec2>): (r: seq<Vec2>)
    requires |uv| == 4
    ensures |r| == 4
  {
    [uv[1], uv[0], uv[3], uv[2]]
  }

  /** What `flipYCoords` does to the texture coordinates: swap 0 with 2 and 1 with 3. */
  function FlipY(uv: seq<Vec2>): (r: seq<Vec2>)
    requires |uv| == 4
    ensures |r| == 4
  {
    [uv[2], uv[3], uv[0], uv[1]]
  }

  /** Mirroring horizontally twice restores the texture coordinates. */
  lemma FlipXInvolution(uv: seq<Vec2>)
    requires |uv| == 4
    ensures FlipX(FlipX(uv)) == uv
  {
  }

  /** Mirroring vertically twice restores the texture coordinates. */
  lemma FlipYInvolution(uv: seq<Vec2>)
    requires |uv| == 4
    ensures FlipY(FlipY(uv)) == uv
  {
  }

  /**
   * The two flips commute, and either order turns the coordinates half-way
   * round: 0 swaps with 3 and 1 with 2.
   */
  lemma FlipsCommute(uv: seq<Vec2>)
    requires |uv| == 4
    ensures FlipY(FlipX(uv)) == FlipX(FlipY(uv))
    ensures FlipY(FlipX(uv)) == [uv[3], uv[2], uv[1], uv[0]]
  {
  }

  /** Each flip only reorders the texture coordinates: no coordinate is lost or made up. */
  lemma FlipsPermute(uv: seq<Vec2>)
    requires |uv| == 4
    ensures multiset(FlipX(uv)) == multiset(uv)
    ensures multiset(FlipY(uv)) == multiset(uv)
  {
    var a, b, c, d := uv[0], uv[1], uv[2], uv[3];
    assert uv == [a] + [b] + [c] + [d];
    assert FlipX(uv) == [b] + [a] + [d] + [c];
    assert FlipY(uv) == [c] + [d] + [a] + [b];
  }

  // ---------------------------------------------------------------------
  // Grid addressing
  // ---------------------------------------------------------------------

  /** One cell, `1 / n`, is the distance from the start of cell k to the start of cell k + 1. */
  lemma CellSizeSpansCell(n: Int32, k: int)
    requires n != 0
    ensures CellSize(n) * k as real == CellStart(k, n)
    ensures CellSize(n) * k as real + CellSize(n) == CellStart(k + 1, n)
    ensures CellSize(n) * n as real == 1.0
  {
  }

  /** With n >= 1, cells are laid out left to right: cell j starts no later than cell k when j <= k. */
  lemma CellStartMonotone(n: Int32, j: int, k: int)
    requires n >= 1 && j <= k
    ensures CellStart(j, n) <= CellStart(k, n)
  {
  }

  /**
   * With an inset of at most half a cell, the UV rectangle of the grid
   * constructor lies inside cell (colPosition, rowPosition):
   * [c/columns, (c+1)/columns] by [r/rows, (r+1)/rows].
   */
  lemma GridTexCoordsInsideCell(columns: Int32, rows: Int32, colPosition: Int32, rowPosition: Int32, s: real)
    requires columns >= 1 && rows >= 1
    requires 0.0 <= s && 2.0 * s <= CellSize(columns) && 2.0 * s <= CellSize(rows)
    ensures forall i :: 0 <= i < 4 ==>
      var uv := GridTexCoords(columns, rows, colPosition, rowPosition, s)[i];
      && CellStart(colPosition as int, columns) <= uv.x <= CellStart(colPosition as int + 1, columns)
      && CellStart(rowPosition as int, rows) <= uv.y <= CellStart(rowPosition as int + 1, rows)
  {
  }

  /**
   * Each corner of the grid UV rectangle sits exactly `s` inside the matching
   * edge of cell (colPosition, rowPosition): left and bottom edges move in
   * by `s`, right and top edges move back by `s`. With the corner pairing of
   * GridTexCoords this fixes all four coordinates.
   */
  lemma GridTexCoordsInsetFromCell(columns: Int32, rows: Int32, colPosition: Int32, rowPosition: Int32, s: real)
    requires columns != 0 && rows != 0
    ensures var uv := GridTexCoords(columns, rows, colPosition, rowPosition, s);
      && uv[0].x == CellStart(colPosition as int, columns) + s
      && uv[1].x == CellStart(colPosition as int + 1, columns) - s
      && uv[2].y == CellStart(rowPosition as int, rows) + s
      && uv[0].y == CellStart(rowPosition as int + 1, rows) - s
  {
    CellSizeSpansCell(columns, colPosition as int);
    CellSizeSpansCell(rows, rowPosition as int);
  }

  /**
   * For a cell that exists on the sheet and an inset of at most half a cell,
   * every texture coordinate lies in the unit square.
   */
  lemma GridTexCoordsInUnitSquare(columns: Int32, rows: Int32, colPosition: Int32, rowPosition: Int32, s: real)
    requires columns >= 1 && rows >= 1
    requires 0 <= colPosition < columns && 0 <= rowPosition < rows
    requires 0.0 <= s && 2.0 * s <= CellSize(columns) && 2.0 * s <= CellSize(rows)
    ensures forall i :: 0 <= i < 4 ==>
      var uv := GridTexCoords(columns, rows, colPosition, rowPosition, s)[i];
      0.0 <= uv.x <= 1.0 && 0.0 <= uv.y <= 1.0
  {
    GridTexCoordsInsideCell(columns, rows, colPosition, rowPosition, s);
    CellStartMonotone(columns, 0, colPosition as int);
    CellStartMonotone(columns, colPosition as int + 1, columns as int);
    CellStartMonotone(rows, 0, rowPosition as int);
    CellStartMonotone(rows, rowPosition as int + 1, rows as int);
  }

  /** The UV rectangles `a` and `b` (in the corner order of GridTexCoords) share no point. */
  predicate Disjoint(a: seq<Vec2>, b: seq<Vec2>)
    requires |a| == 4 && |b| == 4
  {
    a[1].x < b[0].x || b[1].x < a[0].x || a[0].y < b[2].y || b[0].y < a[2].y
  }

  /**
   * A positive inset keeps the UV rectangles of two different cells apart,
   * so that sampling one sprite never reads a neighbouring one.
   */
  lemma DistinctCellsDisjoint(columns: Int32, rows: Int32, c1: Int32, r1: Int32, c2: Int32, r2: Int32, s: real)
    requires columns >= 1 && rows >= 1
    requires 0.0 < s && 2.0 * s <= CellSize(columns) && 2.0 * s <= CellSize(rows)
    requires c1 != c2 || r1 != r2
    ensures Disjoint(GridTexCoords(columns, rows, c1, r1, s), GridTexCoords(columns, rows, c2, r2, s))
  {
    CellSizeSpansCell(columns, c1 as int);
    CellSizeSpansCell(columns, c2 as int);
    CellSizeSpansCell(rows, r1 as int);
    CellSizeSpansCell(rows, r2 as int);
    if c1 < c2 {
      CellStartMonotone(columns, c1 as int + 1, c2 as int);
    } else if c2 < c1 {
      CellStartMonotone(columns, c2 as int + 1, c1 as int);
    } else if r1 < r2 {
      CellStartMonotone(rows, r1 as int + 1, r2 as int);
    } else {
      CellStartMonotone(rows, r2 as int + 1, r1 as int);
    }
  }

  /** Without the inset, horizontally adjacent cells share an edge. */
  lemma ZeroInsetNeighboursTouch(columns: Int32, rows: Int32, c: Int32, r: Int32)
    requires columns >= 1 && rows >= 1 && c < 0x7fff_ffff
    ensures !Disjoint(GridTexCoords(columns, rows, c, r, 0.0), GridTexCoords(columns, rows, c + 1, r, 0.0))
  {
  }

  /**
   * The fixed inset of 0.001 fits the cells exactly when the sheet has at
   * most 500 columns (and 500 rows); beyond that, the UV rectangle comes out
   * mirrored. At exactly 500 it has zero width (or height), so it keeps a
   * proper orientation only below 500.
   */
  lemma UvSpacingFitsUpTo500(columns: Int32, rows: Int32, colPosition: Int32, rowPosition: Int32)
    requires columns >= 1 && rows >= 1
    ensures var uv := GridTexCoords(columns, rows, colPosition, rowPosition, UvSpacing);
      && (uv[0].x <= uv[1].x <==> columns <= 500)
      && (uv[2].y <= uv[0].y <==> rows <= 500)
      && (uv[0].x < uv[1].x <==> columns < 500)
      && (uv[2].y < uv[0].y <==> rows < 500)
  {
  }

  /** Twice the fixed inset fits in one of n cells exactly when n <= 500. */
  lemma InsetFitsCell(n: Int32)
    requires n >= 1
    ensures 2.0 * UvSpacing <= CellSize(n) <==> n <= 500
  {
  }

  /**
   * With the inset the class uses, every texture coordinate of a cell on a
   * sheet of at most 500 by 500 cells lies in the unit square.
   */
  lemma UvSpacingInUnitSquare(columns: Int32, rows: Int32, colPosition: Int32, rowPosition: Int32)
    requires 1 <= columns <= 500 && 1 <= rows <= 500
    requires 0 <= colPosition < columns && 0 <= rowPosition < rows
    ensures forall i :: 0 <= i < 4 ==>
      var uv := GridTexCoords(columns, rows, colPosition, rowPosition, UvSpacing)[i];
      0.0 <= uv.x <= 1.0 && 0.0 <= uv.y <= 1.0
  {
    InsetFitsCell(columns);
    InsetFitsCell(rows);
    GridTexCoordsInUnitSquare(columns, rows, colPosition, rowPosition, UvSpacing);
  }

  /** The two-argument constructor's coordinates: the whole texture, inset by `s` on every side. */
  lemma DefaultTexCoordsCoverTexture(s: real)
    ensures GridTexCoords(1, 1, 0, 0, s)
      == [Vec2(s, 1.0 - s), Vec2(1.0 - s, 1.0 - s), Vec2(s, s), Vec2(1.0 - s, s)]
  {
  }

  /**
   * Cell (1, 0) of a 2-by-2 sheet with the default inset. Row 0 of 2 spans
   * v in [0, 0.5], so the inset cell runs from 0.001 to 0.499 along v.
   */
  lemma GridExample()
    ensures GridTexCoords(2, 2, 1, 0, UvSpacing)
      == [Vec2(0.501, 0.499), Vec2(0.999, 0.499), Vec2(0.501, 0.001), Vec2(0.999, 0.001)]
  {
  }

  // ---------------------------------------------------------------------
  // Pixel-rectangle addressing
  // ---------------------------------------------------------------------

  /**
   * When the corners x + w and y + h fit in an `int`, scaling the texture
   * coordinates back by the image size gives the corners of the pixel
   * rectangle.
   */
  lemma PixelTexCoordsRecoverRect(x: Int32, y: Int32, w: Int32, h: Int32, imgW: Int32, imgH: Int32)
    requires imgW > 0 && imgH > 0
    requires FitsInt32(x as int + w as int) && FitsInt32(y as int + h as int)
    ensures var uv := PixelTexCoords(x, y, w, h, imgW, imgH);
      && uv[0].x * imgW as real == x as real && uv[1].x * imgW as real == x as real + w as real
      && uv[2].y * imgH as real == y as real && uv[0].y * imgH as real == y as real + h as real
  {
  }

  /** A rectangle of 10 by 20 pixels at the origin of a 100-by-200 image. */
  lemma PixelExample()
    ensures PixelTexCoords(0, 0, 10, 20, 100, 200)
      == [Vec2(0.0, 0.1), Vec2(0.1, 0.1), Vec2(0.0, 0.0), Vec2(0.1, 0.0)]
  {
  }

  // ---------------------------------------------------------------------
  // Geometry
  // ---------------------------------------------------------------------

  /** Twice the signed area of triangle (a, b, c) in the z = 0 plane; positive when counter-clockwise. */
  function Cross(a: Vec3, b: Vec3, c: Vec3): real {
    (b.x - a.x) * (c.y - a.y) - (b.y - a.y) * (c.x - a.x)
  }

  /**
   * Both triangles of the index buffer wind counter-clockwise seen from the
   * face normal, and each covers half of the width-by-height quad. They
   * share exactly the edge from vertex 1 to vertex 2, a diagonal of the
   * quad (v1 == -v2), and together use all four corners, so they tile it.
   */
  lemma TrianglesCoverQuad(width: real, height: real)
    requires width > 0.0 && height > 0.0
    ensures var v, idx := Vertices(width, height), Indexes();
      && Cross(v[idx[0]], v[idx[1]], v[idx[2]]) == width * height
      && Cross(v[idx[3]], v[idx[4]], v[idx[5]]) == width * height
      && {idx[0], idx[1], idx[2]} * {idx[3], idx[4], idx[5]} == {1, 2}
      && {idx[0], idx[1], idx[2]} + {idx[3], idx[4], idx[5]} == {0, 1, 2, 3}
      && v[1] == Neg(v[2])
  {
  }

  /** Every normal is the unit vector perpendicular to the plane of the quad. */
  lemma NormalsPerpendicular(width: real, height: real)
    ensures forall k, i, j :: 0 <= k < 4 && 0 <= i < 4 && 0 <= j < 4 ==>
      Dot(Normals()[k], Normals()[k]) == 1.0 &&
      Dot(Normals()[k], Sub(Vertices(width, height)[i], Vertices(width, height)[j])) == 0.0
  {
    var n, v := Normals(), Vertices(width, height);
    forall k, i, j | 0 <= k < 4 && 0 <= i < 4 && 0 <= j < 4
      ensures Dot(n[k], n[k]) == 1.0 && Dot(n[k], Sub(v[i], v[j])) == 0.0
    {
      assert n[k] == FaceNormal && v[i].z == 0.0 && v[j].z == 0.0;
    }
  }

  // ---------------------------------------------------------------------
  // Orientation of the texture on the quad
  // ---------------------------------------------------------------------

  function Xs(v: seq<Vec3>): seq<real>
    requires |v| == 4
  {
    [v[0].x, v[1].x, v[2].x, v[3].x]
  }

  function Ys(v: seq<Vec3>): seq<real>
    requires |v| == 4
  {
    [v[0].y, v[1].y, v[2].y, v[3].y]
  }

  function Us(uv: seq<Vec2>): seq<real>
    requires |uv| == 4
  {
    [uv[0].x, uv[1].x, uv[2].x, uv[3].x]
  }

  function Vs(uv: seq<Vec2>): seq<real>
    requires |uv| == 4
  {
    [uv[0].y, uv[1].y, uv[2].y, uv[3].y]
  }

  /** `q` orders the corners as `p` does: the texture runs the same way as the quad. */
  ghost predicate SameOrder(p: seq<real>, q: seq<real>)
    requires |p| == |q|
  {
    forall i, j :: 0 <= i < |p| && 0 <= j < |p| ==> (p[i] < p[j] <==> q[i] < q[j])
  }

  /** `q` orders the corners opposite to `p`: the texture is mirrored along that axis. */
  ghost predicate ReverseOrder(p: seq<real>, q: seq<real>)
    requires |p| == |q|
  {
    forall i, j :: 0 <= i < |p| && 0 <= j < |p| ==> (p[i] < p[j] <==> q[j] < q[i])
  }

  /**
   * On a quad of positive size with an inset below half a cell, the grid
   * constructor's texture runs the same way as the quad along x and
   * opposite to it along y: the quad's bottom edge gets the larger v of
   * the cell, and the top edge the smaller.
   */
  lemma GridOrientation(width: real, height: real, columns: Int32, rows: Int32, colPosition: Int32, rowPosition: Int32, s: real)
    requires width > 0.0 && height > 0.0
    requires columns != 0 && rows != 0
    requires 2.0 * s < CellSize(columns) && 2.0 * s < CellSize(rows)
    ensures var v, uv := Vertices(width, height), GridTexCoords(columns, rows, colPosition, rowPosition, s);
      SameOrder(Xs(v), Us(uv)) && ReverseOrder(Ys(v), Vs(uv))
  {
  }

  /** The pixel-rectangle constructor orients the texture as the grid constructor does. */
  lemma PixelOrientation(width: real, height: real, x: Int32, y: Int32, w: Int32, h: Int32, imgW: Int32, imgH: Int32)
    requires width > 0.0 && height > 0.0 && w > 0 && h > 0 && imgW > 0 && imgH > 0
    requires FitsInt32(x as int + w as int) && FitsInt32(y as int + h as int)
    ensures var v, uv := Vertices(width, height), PixelTexCoords(x, y, w, h, imgW, imgH);
      SameOrder(Xs(v), Us(uv)) && ReverseOrder(Ys(v), Vs(uv))
  {
  }

  /**
   * The reordering `perm` (its own inverse) sends each corner to the one
   * mirrored along an axis whose corner coordinates are `p`, and `r` is `q`
   * reordered by it. Then `r` runs against `p` exactly when `q` runs with
   * it, and the other way round.
   */
  lemma MirroredReordering(p: seq<real>, q: seq<real>, r: seq<real>, perm: seq<int>)
    requires |p| == 4 && |q| == 4 && |r| == 4 && |perm| == 4
    requires forall i :: 0 <= i < 4 ==> 0 <= perm[i] < 4 && perm[perm[i]] == i
    requires forall i :: 0 <= i < 4 ==> p[perm[i]] == -p[i] && r[i] == q[perm[i]]
    ensures SameOrder(p, q) <==> ReverseOrder(p, r)
    ensures ReverseOrder(p, q) <==> SameOrder(p, r)
  {
  }

  /**
   * The reordering `perm` (its own inverse) swaps only corners that share
   * their coordinate `p` along an axis, and `r` is `q` reordered by it.
   * Then `r` runs with (or against) `p` exactly when `q` does.
   */
  lemma FlatReordering(p: seq<real>, q: seq<real>, r: seq<real>, perm: seq<int>)
    requires |p| == 4 && |q| == 4 && |r| == 4 && |perm| == 4
    requires forall i :: 0 <= i < 4 ==> 0 <= perm[i] < 4 && perm[perm[i]] == i
    requires forall i :: 0 <= i < 4 ==> p[perm[i]] == p[i] && r[i] == q[perm[i]]
    ensures SameOrder(p, q) <==> SameOrder(p, r)
    ensures ReverseOrder(p, q) <==> ReverseOrder(p, r)
  {
  }

  /**
   * Flipping X turns a texture that runs with the quad along x into one
   * that runs against it, and back; along y it keeps the orientation.
   */
  lemma FlipXMirrors(width: real, height: real, uv: seq<Vec2>)
    requires |uv| == 4
    ensures var v := Vertices(width, height);
      && (SameOrder(Xs(v), Us(uv)) <==> ReverseOrder(Xs(v), Us(FlipX(uv))))
      && (ReverseOrder(Xs(v), Us(uv)) <==> SameOrder(Xs(v), Us(FlipX(uv))))
      && (SameOrder(Ys(v), Vs(uv)) <==> SameOrder(Ys(v), Vs(FlipX(uv))))
      && (ReverseOrder(Ys(v), Vs(uv)) <==> ReverseOrder(Ys(v), Vs(FlipX(uv))))
  {
    MirroredReordering(Xs(Vertices(width, height)), Us(uv), Us(FlipX(uv)), [1, 0, 3, 2]);
    FlatReordering(Ys(Vertices(width, height)), Vs(uv), Vs(FlipX(uv)), [1, 0, 3, 2]);
  }

  /**
   * Flipping Y turns a texture that runs against the quad along y into one
   * that runs with it, and back; along x it keeps the orientation.
   */
  lemma FlipYMirrors(width: real, height: real, uv: seq<Vec2>)
    requires |uv| == 4
    ensures var v := Vertices(width, height);
      && (SameOrder(Ys(v), Vs(uv)) <==> ReverseOrder(Ys(v), Vs(FlipY(uv))))
      && (ReverseOrder(Ys(v), Vs(uv)) <==> SameOrder(Ys(v), Vs(FlipY(uv))))
      && (SameOrder(Xs(v), Us(uv)) <==> SameOrder(Xs(v), Us(FlipY(uv))))
      && (ReverseOrder(Xs(v), Us(uv)) <==> ReverseOrder(Xs(v), Us(FlipY(uv))))
  {
    MirroredReordering(Ys(Vertices(width, height)), Vs(uv), Vs(FlipY(uv)), [2, 3, 0, 1]);
    FlatReordering(Xs(Vertices(width, height)), Us(uv), Us(FlipY(uv)), [2, 3, 0, 1]);
  }

  // ---------------------------------------------------------------------
  // The mesh object
  // ---------------------------------------------------------------------

  /**
   * The sprite mesh. The engine's buffers are the ghost fields posBuf,
   * uvBuf, normBuf and idxBuf: each holds what was last uploaded.
   */
  class Sprite {
    var width: real
    var height: real
    var rows: Int32
    var columns: Int32
    var colPosition: Int32
    var rowPosition: Int32
    var texCoord: array<Vec2>

    ghost var posBuf: seq<Vec3>
    ghost var uvBuf: seq<Vec2>
    ghost var normBuf: seq<Vec3>
    ghost var idxBuf: seq<int>

    /**
     * The mesh invariant: four texture coordinates, and the uploaded
     * buffers agree with the geometry and the current texture coordinates.
     */
    ghost predicate Valid()
      reads this, texCoord
    {
      && texCoord.Length == 4
      && posBuf == Vertices(width, height)
      && uvBuf == texCoord[..]
      && normBuf == Normals()
      && idxBuf == Indexes()
    }

    /** The two-argument constructor: the whole texture, as grid cell (0, 0) of a 1-by-1 sheet. */
    constructor (width: real, height: real)
      ensures Valid() && fresh(texCoord)
      ensures this.width == width && this.height == height
      ensures columns == 1 && rows == 1 && colPosition == 0 && rowPosition == 0
      ensures texCoord[..] == GridTexCoords(1, 1, 0, 0, UvSpacing)
    {
      this.width := width;
      this.height := height;
      columns, rows, colPosition, rowPosition := 1, 1, 0, 0;
      var uv := NewTexCoord(GridTexCoords(1, 1, 0, 0, UvSpacing));
      texCoord := uv;
      new;
      InitializeMesh();
    }

    /** The grid constructor: cell (colPosition, rowPosition) of a columns-by-rows sprite sheet. */
    constructor Grid(width: real, height: real, columns: Int32, rows: Int32, colPosition: Int32, rowPosition: Int32)
      requires columns != 0 && rows != 0
      ensures Valid() && fresh(texCoord)
      ensures this.width == width && this.height == height
      ensures this.columns == columns && this.rows == rows
      ensures this.colPosition == colPosition && this.rowPosition == rowPosition
      ensures texCoord[..] == GridTexCoords(columns, rows, colPosition, rowPosition, UvSpacing)
    {
      this.width := width;
      this.height := height;
      this.columns := columns;
      this.rows := rows;
      this.colPosition := colPosition;
      this.rowPosition := rowPosition;
      var uv := NewTexCoord(GridTexCoords(columns, rows, colPosition, rowPosition, UvSpacing));
      texCoord := uv;
      new;
      InitializeMesh();
    }

    /**
     * The pixel-rectangle constructor: the rectangle (x, y, w, h) of a texture
     * of imgW by imgH pixels. The grid fields keep their defaults.
     */
    constructor PixelRect(width: real, height: real, x: Int32, y: Int32, w: Int32, h: Int32, imgW: Int32, imgH: Int32)
      requires imgW > 0 && imgH > 0
      ensures Valid() && fresh(texCoord)
      ensures this.width == width && this.height == height
      ensures columns == 1 && rows == 1 && colPosition == 0 && rowPosition == 0
      ensures texCoord[..] == PixelTexCoords(x, y, w, h, imgW, imgH)
    {
      this.width := width;
      this.height := height;
      columns, rows, colPosition, rowPosition := 1, 1, 0, 0;
      var uv := NewTexCoord(PixelTexCoords(x, y, w, h, imgW, imgH));
      texCoord := uv;
      new;
      InitializeMesh();
    }

    /** Uploads the position, texture-coordinate, normal and index buffers. */
    method InitializeMesh()
      requires texCoord.Length == 4
      modifies this`posBuf, this`uvBuf, this`normBuf, this`idxBuf
      ensures Valid()
      ensures posBuf == Vertices(width, height) && uvBuf == texCoord[..]
      ensures normBuf == Normals() && idxBuf == Indexes()
    {
      posBuf := Vertices(width, height);
      uvBuf := texCoord[..];
      normBuf := Normals();
      idxBuf := Indexes();
    }

    /** Mirrors the texture horizontally and re-uploads the texture coordinates only. */
    method FlipXCoords()
      requires Valid()
      modifies this`uvBuf, texCoord
      ensures Valid()
      ensures texCoord[..] == FlipX(old(texCoord[..]))
      ensures uvBuf == texCoord[..]
      ensures posBuf == old(posBuf) && normBuf == old(normBuf) && idxBuf == old(idxBuf)
      ensures width == old(width) && height == old(height)
      ensures rows == old(rows) && columns == old(columns)
      ensures colPosition == old(colPosition) && rowPosition == old(rowPosition)
    {
      var tmp := texCoord[0];
      texCoord[0] := texCoord[1];
      texCoord[1] := tmp;
      tmp := texCoord[2];
      texCoord[2] := texCoord[3];
      texCoord[3] := tmp;
      uvBuf := texCoord[..];
    }

    /** Mirrors the texture vertically and re-uploads the texture coordinates only. */
    method FlipYCoords()
      requires Valid()
      modifies this`uvBuf, texCoord
      ensures Valid()
      ensures texCoord[..] == FlipY(old(texCoord[..]))
      ensures uvBuf == texCoord[..]
      ensures posBuf == old(posBuf) && normBuf == old(normBuf) && idxBuf == old(idxBuf)
      ensures width == old(width) && height == old(height)
      ensures rows == old(rows) && columns == old(columns)
      ensures colPosition == old(colPosition) && rowPosition == old(rowPosition)
    {
      var tmp := texCoord[0];
      texCoord[0] := texCoord[2];
      texCoord[2] := tmp;
      tmp := texCoord[1];
      texCoord[1] := texCoord[3];
      texCoord[3] := tmp;
      uvBuf := texCoord[..];
    }

    /** The source's getters: each returns its field. */
    function GetWidth(): (r: real)
      reads this
      ensures r == width
    {
      width
    }

    function GetHeight(): (r: real)
      reads this
      ensures r == height
    {
      height
    }

    function GetRows(): (r: Int32)
      reads this
      ensures r == rows
    {
      rows
    }

    function GetColumns(): (r: Int32)
      reads this
      ensures r == columns
    {
      columns
    }

    function GetColPosition(): (r: Int32)
      reads this
      ensures r == colPosition
    {
      colPosition
    }

    function GetRowPosition(): (r: Int32)
      reads this
      ensures r == rowPosition
    {
      rowPosition
    }
  }

  /** A fresh four-element texture-coordinate array holding `uv`. */
  method NewTexCoord(uv: seq<Vec2>) returns (a: array<Vec2>)
    requires |uv| == 4
    ensures fresh(a) && a[..] == uv
  {
    a := new Vec2[4];
    a[0] := uv[0];
    a[1] := uv[1];
    a[2] := uv[2];
    a[3] := uv[3];
  }
}
